=== FILE: README.md ===
# java-todos TodoServer in Dafny

A model of the in-memory todo service in `TodoServer.java`. The service keeps a
list of todo records and an integer id counter, and two HTTP handlers act on them:

- `/todos` lists the records that are not deleted (GET) or creates one (POST).
- `/todos/{id}` reads, overwrites, soft-deletes or (on POST) creates a record.

The HTTP exchange and the JSON library are abstracted away. A handler receives the
request method as a string, the path, and the outcome of parsing the body. It
returns a status code with an abstract body, and it changes the store.

Files:

- `wrappers.dfy`: module `Wrappers`, the `Option` type.
- `java_text.dfy`: module `JavaText`, the Java library behaviour the handlers rely on.
  - `Split` is `String.split("/")`: a string without `/` comes back whole; otherwise
    trailing empty strings are dropped.
  - `ParseInt` is `Integer.parseInt`: an optional sign, then decimal digits within
    the 32-bit range.
  - `EqualsIgnoreCase` is `equalsIgnoreCase` against a name in upper-case ASCII, such as
    the method names. Besides the lower-case ASCII letters it admits the four characters
    that Java's case folding maps to an ASCII letter: U+017F for `S`, U+0131 and
    U+0130 for `I`, and U+212A for `K`.
  - Each comes with a partner: `Join` for `Split`, and `Decimal` (`Integer.toString`)
    for `ParseInt`.
- `todo_model.dfy`: module `TodoModel`, the pure model.
  - The store `State(todos, counter)` and its invariant `WellFormed`: ids are at
    least 1, below the counter, and strictly increasing along the list.
  - `Evolves`: a list never shrinks, ids never change, and a deleted record never
    changes again.
  - `Collection` and `Item`: the two handlers as functions from a state and a
    request to a `Step` (the next state and the response).
- `todo_properties.dfy`: module `TodoProperties`, lemmas about every branch of both
  handlers and about any sequence of requests (`Run`).
- `server.dfy`: module `Server`, class `TodoServer`.
  - It has the mutable fields `todos` and `counter`.
  - Its handlers are written step by step, with the two loops of the source
    (collecting the visible records and looking a record up by id).
  - Each handler is proved to produce exactly the `Step` that `TodoModel` prescribes,
    and to keep the invariant.

The body-parse outcome has three values, because Gson's `fromJson` has three
behaviours:

- `Malformed`: it throws.
- `Null`: it returns `null`, for an empty body or the literal `null`.
- `Parsed(Draft(title, status))`: it returns an object.

In `t.id = counter++` Java evaluates the right-hand side before it checks `t` for
`null`. A `null` body therefore still advances the counter:

- Collection POST with a `null` body: the `NullPointerException` escapes the handler,
  which sends no status. The model's response is `Aborted`.
- Item POST with a `null` body: the handler catches the exception and answers 400. No
  record is added, but the counter has moved.
- Item PUT with a `null` body: the exception is raised before any field is written, and
  the store is unchanged.

The model follows the code as written:

- Ids are consecutive Java ints starting at 1.
- The item handler does not check that the second path part is `todos`.
- The item handler looks up the id before it considers the method. So `POST /todos/{id}`
  with an unknown id, and an unsupported method on an unknown id, both give 404.
- The list is kept in insertion order, and the server is single-threaded.
- A body that cannot be used is not always free of side effects: the `null`-body cases
  above advance the counter.

## Model

| member | source | states |
|---|---|---|
| JavaText.Split | src/main/java/com/fntfaizan/TodoServer.java:61 | a path without `/` comes back whole as one part (`""` gives `[""]`); otherwise no part contains `/` and the last part kept is non-empty (trailing empty strings dropped) |
| JavaText.DropTrailingEmpty | src/main/java/com/fntfaizan/TodoServer.java:61 | the result is the prefix of the parts that ends in a non-empty part and leaves only empty parts behind |
| JavaText.SplitJoin | src/main/java/com/fntfaizan/TodoServer.java:61 | joining the parts with `/` gives the path back without its trailing slashes |
| JavaText.JoinPieces | src/main/java/com/fntfaizan/TodoServer.java:61 | splitting at every `/` loses nothing but the separators |
| JavaText.ItemPathSplit | src/main/java/com/fntfaizan/TodoServer.java:61-62 | `/<first>/<segment>` splits into exactly `["", first, segment]` |
| JavaText.ParseInt | src/main/java/com/fntfaizan/TodoServer.java:66-73 | both directions: a result exists exactly when the input is an optional sign followed by one or more digits whose signed value is a 32-bit int, and it is that value |
| JavaText.Digits | src/main/java/com/fntfaizan/TodoServer.java:42 | reference inverse of `parseInt` (the digits in which `gson.toJson` writes an id back): non-empty, unsigned, and of value n |
| JavaText.Decimal | src/main/java/com/fntfaizan/TodoServer.java:42 | `Integer.toString`, the reference inverse of `parseInt` and the form in which an id is written back (also lines 96, 100, 115): non-empty and free of `/`, so it fits in one path part |
| JavaText.ParseDecimal | src/main/java/com/fntfaizan/TodoServer.java:68 | parseInt undoes toString on every 32-bit int |
| JavaText.EqualsIgnoreCase | src/main/java/com/fntfaizan/TodoServer.java:21 | on an ASCII method string and a name without lower-case letters, equalsIgnoreCase is equality after upper-casing the ASCII letters |
| JavaText.EqualsIgnoreCaseUpper | src/main/java/com/fntfaizan/TodoServer.java:21 | comparing with an upper-case method name does not depend on the case of ASCII letters |
| TodoModel.VerbOf | src/main/java/com/fntfaizan/TodoServer.java:86-109 | the method is PUT, GET, DELETE or POST exactly when equalsIgnoreCase with that name holds (so the tests at lines 21, 28, 86, 99, 104, 109 exclude each other and their order does not matter) |
| TodoModel.Create | src/main/java/com/fntfaizan/TodoServer.java:39-42 | the old records are kept as a prefix and one record with the old counter as its id and `deleted == false` is appended; the counter goes up by one; 201 with the new record; the id is fresh and the invariant is kept |
| TodoModel.Collection | src/main/java/com/fntfaizan/TodoServer.java:17-47 | the store only evolves (no shrink, ids fixed, deleted records frozen); a response other than 2xx leaves the records unchanged; the counter goes up by at most one; the invariant is kept |
| TodoModel.ItemTarget | src/main/java/com/fntfaizan/TodoServer.java:60-73 | the path is rejected with 404 exactly when it has fewer than three parts or an empty third part; otherwise a third part that parseInt accepts is the id passed on to the lookup, always a 32-bit int, and any other third part is a bad id (400) |
| TodoModel.Item | src/main/java/com/fntfaizan/TodoServer.java:56-123 | the store only evolves; a response other than 2xx leaves the records unchanged; the counter goes up by at most one; the invariant is kept |
| TodoModel.Run | src/main/java/com/fntfaizan/TodoServer.java:125 | requests run one after another: the list never shrinks, the counter never goes back, ids never change, and a deleted record never changes again |
| TodoModel.Visible | src/main/java/com/fntfaizan/TodoServer.java:23-25 | the visible list is no longer than the store, and holds only stored records that are not deleted |
| TodoModel.FindVisible | src/main/java/com/fntfaizan/TodoServer.java:79-82 | a found index holds the id and is not deleted, and no later record matches; `None` means that no record matches |
| TodoProperties.VerbIgnoresCase | src/main/java/com/fntfaizan/TodoServer.java:21-28 | the method a request is taken for does not depend on the case of its ASCII letters |
| TodoProperties.VerbExamples | src/main/java/com/fntfaizan/TodoServer.java:86-109 | `get`, `Post`, `pUt`, `delete` are recognised in any letter case |
| TodoProperties.UnknownVerbExamples | src/main/java/com/fntfaizan/TodoServer.java:120-122 | `PATCH`, `HEAD` and `GETS` are not recognised |
| TodoProperties.VisibleMembers | src/main/java/com/fntfaizan/TodoServer.java:23-26 | a record is listed if and only if it is stored and not deleted |
| TodoProperties.VisibleAppend | src/main/java/com/fntfaizan/TodoServer.java:24-25 | filtering keeps list order: the visible records of `a + b` are those of `a`, then those of `b` |
| TodoProperties.VisibleOrdered | src/main/java/com/fntfaizan/TodoServer.java:24-26 | when the store's ids increase along the list, the listed ids increase too |
| TodoProperties.FindVisibleUnique | src/main/java/com/fntfaizan/TodoServer.java:79-82 | on a well-formed store, looking up a visible record's id finds exactly that record |
| TodoProperties.InitialWellFormed | src/main/java/com/fntfaizan/TodoServer.java:10-11 | the start state is an empty list with counter 1, and it satisfies the invariant |
| TodoProperties.CreateKeepsWellFormed | src/main/java/com/fntfaizan/TodoServer.java:39-41 | the new list is exactly the old list plus `Todo(counter, title, status, false)`, so no existing record changes; the invariant is kept |
| TodoProperties.EvolvesTransitive | src/main/java/com/fntfaizan/TodoServer.java:105 | the evolution relation composes, so a deleted record stays deleted and unchanged across requests |
| TodoProperties.RunKeepsWellFormed | src/main/java/com/fntfaizan/TodoServer.java:125 | over any sequence of requests: the invariant holds, the list never shrinks, ids never change, and a deleted record is never changed or undeleted |
| TodoProperties.CollectionGetLists | src/main/java/com/fntfaizan/TodoServer.java:21-26 | GET `/todos` is 200 with exactly the records not deleted, in increasing id order; the store is unchanged |
| TodoProperties.CollectionPostCreates | src/main/java/com/fntfaizan/TodoServer.java:28-42 | POST `/todos` appends one record with the old counter as a fresh id and `deleted == false`; the counter goes up by one, existing records stay, and the answer is 201 with the record |
| TodoProperties.CollectionPostMalformed | src/main/java/com/fntfaizan/TodoServer.java:33-38 | an unparsable body is 400 and the store is unchanged |
| TodoProperties.CollectionPostNull | src/main/java/com/fntfaizan/TodoServer.java:34-39 | a `null` body advances the counter, adds no record, and the handler dies without a status |
| TodoProperties.CollectionOtherMethod | src/main/java/com/fntfaizan/TodoServer.java:44-46 | any method other than GET and POST is 405, and the store is unchanged |
| TodoProperties.NoRouteIs404 | src/main/java/com/fntfaizan/TodoServer.java:61-64 | fewer than three parts, or an empty third part, is 404 with the store unchanged, whatever the method or body |
| TodoProperties.BadIdIs400 | src/main/java/com/fntfaizan/TodoServer.java:66-73 | a third part that parseInt rejects is 400 with the store unchanged |
| TodoProperties.TrailingSlashIsNoRoute | src/main/java/com/fntfaizan/TodoServer.java:61-63 | `/todos/` has no id part (404) |
| TodoProperties.EmptySegmentIsNoRoute | src/main/java/com/fntfaizan/TodoServer.java:61-63 | `/todos//…` has an empty id part (404), whatever follows |
| TodoProperties.TargetIgnoresRest | src/main/java/com/fntfaizan/TodoServer.java:61-68 | the second part is not checked, and anything after the id part is ignored |
| TodoProperties.TargetOfDecimal | src/main/java/com/fntfaizan/TodoServer.java:61-68 | a path ending in an int's decimal form addresses that id |
| TodoProperties.LeadingZeroIgnored | src/main/java/com/fntfaizan/TodoServer.java:68 | a leading zero does not change the id that is parsed |
| TodoProperties.TooLargeIdRejected | src/main/java/com/fntfaizan/TodoServer.java:68-72 | a number above Integer.MAX_VALUE does not parse |
| TodoProperties.UnknownIdIs404 | src/main/java/com/fntfaizan/TodoServer.java:79-82 | with no visible record for the id, the answer is 404 with the store unchanged, for every method including POST and unknown ones |
| TodoProperties.ItemGetReturns | src/main/java/com/fntfaizan/TodoServer.java:99-100 | GET of a visible record is 200 with that record, and the store is unchanged |
| TodoProperties.ItemPutUpdates | src/main/java/com/fntfaizan/TodoServer.java:86-96 | PUT sets only that record's title and status; its id and `deleted`, every other record, the length and the counter stay the same; the answer is 200 with the record |
| TodoProperties.ItemBadBody | src/main/java/com/fntfaizan/TodoServer.java:86-118 | unparsable PUT or POST body: 400, no change. `null` PUT body: dies, no change. `null` POST body: 400, counter + 1, no record |
| TodoProperties.ItemPostCreates | src/main/java/com/fntfaizan/TodoServer.java:109-115 | POST on a visible id creates a new, unrelated record, exactly as POST `/todos` does |
| TodoProperties.ItemOtherMethod | src/main/java/com/fntfaizan/TodoServer.java:120-122 | an unsupported method on a visible id is 405, and the store is unchanged |
| TodoProperties.ItemDeleteHides | src/main/java/com/fntfaizan/TodoServer.java:104-106 | DELETE sets only that record's `deleted` flag and is 204; afterwards any request for the id is 404 with no change, and the listing omits it |
| TodoProperties.DeletedStaysHidden | src/main/java/com/fntfaizan/TodoServer.java:79-82 | after DELETE of a record, and after any sequence of later requests, every request for its id is still 404 with no change |
| JavaText.NonAsciiCaseMatches | src/main/java/com/fntfaizan/TodoServer.java:21 | U+017F, U+0131, U+0130 and U+212A match `S`, `I`, `I` and `K` under equalsIgnoreCase, and U+00DF does not match `S` |
| TodoProperties.CreateThenGet | src/main/java/com/fntfaizan/TodoServer.java:79-100 | after POST `/todos`, GET `/todos/<new id>` returns the record just created |
| Server.TodoServer.constructor | src/main/java/com/fntfaizan/TodoServer.java:10-11 | starts with no records and counter 1, satisfying the invariant |
| Server.TodoServer.VisibleTodos | src/main/java/com/fntfaizan/TodoServer.java:23-25 | the loop collects exactly `Visible(todos)` |
| Server.TodoServer.Lookup | src/main/java/com/fntfaizan/TodoServer.java:79-81 | the loop ends on exactly `FindVisible(todos, id)`, the last match |
| Server.TodoServer.Add | src/main/java/com/fntfaizan/TodoServer.java:39-41 | the new record has the old counter as its id and is not deleted; it is appended, and the counter goes up by one |
| Server.TodoServer.HandleCollection | src/main/java/com/fntfaizan/TodoServer.java:17-47 | the new store and the response are exactly those of `TodoModel.Collection`; the invariant is kept |
| Server.TodoServer.HandleItem | src/main/java/com/fntfaizan/TodoServer.java:56-123 | the new store and the response are exactly those of `TodoModel.Item`; the invariant is kept |

## Left out

- Server start-up is not modelled: port binding, registering the two contexts, `server.start()` and the log line (lines 14-17, 56, 125-127). The model is given the selected handler and the path directly. Routing by context prefix (for example `/todosX` reaching the collection handler) is not modelled.
- `readBody` and `sendJson` (lines 133-147) are not modelled. They are stream I/O and UTF-8 encoding, so a response is a status code and an abstract body.
- Gson is not modelled. Parsing is the input `BodyParse`. Output is the record values, not JSON text. Gson sets a missing `title` or `status` to `null`; the model's strings stand for whatever value Gson produced.
- The `Content-Type` header that the collection handler adds (line 19) is not modelled. It is a side effect on the exchange, not on the store.
- `Todo.java` is not part of this model. Its fields `id`, `title`, `status` and `deleted` are taken from their use in `TodoServer.java`.
- Records are values, not shared objects. Field writes to the found record (lines 94-95, 105) become an update of the list at that record's index. Aliasing between the list and a response is not observable, because the response is serialised at once.
- TodoModel.State: the counter is an unbounded integer, so the 32-bit wrap-around of `counter++` after 2^31 - 1 creations is not modelled.
- JavaText.ParseInt: it accepts ASCII digits only. `Character.digit` also accepts other Unicode decimal digits (for example Arabic-Indic), and the model answers 400 for those ids.
- JavaText.EqualsIgnoreCase: it compares Unicode characters, while Java compares UTF-16 code units. The two agree on every comparison with the ASCII method names used here.
- Concurrency and locking are not modelled. The server runs on one thread (line 125), and `Run` models requests handled one after another.

=== FILE: java_text.dfy ===
/** The three java.lang.String / Integer operations the request handlers depend on:
    path.split("/"), Integer.parseInt and equalsIgnoreCase. Each is stated with
    Java's own edge cases, because the handlers' status codes follow from them. */
module JavaText {
  import opened Wrappers

  // ---------------------------------------------------------------------------
  // String.split("/")
  // ---------------------------------------------------------------------------

  /** The pieces between consecutive '/' characters, nothing dropped:
      a string with k slashes has k + 1 pieces. */
  function Pieces(s: string): (r: seq<string>)
    ensures |r| >= 1
    ensures forall i :: 0 <= i < |r| ==> '/' !in r[i]
    decreases |s|
  {
    if |s| == 0 then [""]
    else
      var rest := Pieces(s[1..]);
      if s[0] == '/' then [""] + rest
      else [[s[0]] + rest[0]] + rest[1..]
  }

  /** The pieces glued back together with '/' between them. */
  function Join(parts: seq<string>): string
  {
    if |parts| == 0 then ""
    else if |parts| == 1 then parts[0]
    else parts[0] + "/" + Join(parts[1..])
  }

  /** The longest prefix of `parts` that does not end in an empty string. */
  function DropTrailingEmpty(parts: seq<string>): (r: seq<string>)
    ensures r <= parts
    ensures |r| > 0 ==> r[|r| - 1] != ""
    ensures forall i :: |r| <= i < |parts| ==> parts[i] == ""
  {
    if |parts| > 0 && parts[|parts| - 1] == "" then DropTrailingEmpty(parts[..|parts| - 1])
    else parts
  }

  /** Java's s.split("/") (limit 0): a string without '/' is returned whole,
      otherwise the pieces with trailing empty strings removed (which can leave none). */
  function Split(s: string): (r: seq<string>)
    ensures forall i :: 0 <= i < |r| ==> '/' !in r[i]
    ensures '/' in s && |r| > 0 ==> r[|r| - 1] != ""
    ensures '/' !in s ==> r == [s]
  {
    if '/' !in s then [s] else DropTrailingEmpty(Pieces(s))
  }

  /** `s` without the '/' characters at its end. */
  function TrimTrailingSlashes(s: string): string
  {
    if |s| > 0 && s[|s| - 1] == '/' then TrimTrailingSlashes(s[..|s| - 1]) else s
  }

  /** Splitting loses nothing but the separators themselves. */
  lemma {:induction false} JoinPieces(s: string)
    ensures Join(Pieces(s)) == s
    decreases |s|
  {
    if |s| > 0 {
      var rest := Pieces(s[1..]);
      JoinPieces(s[1..]);
      if s[0] == '/' {
        assert Pieces(s) == [""] + rest;
        assert ([""] + rest)[1..] == rest;
      } else if |rest| == 1 {
        assert Pieces(s) == [[s[0]] + rest[0]];
        assert s == [s[0]] + s[1..];
      } else {
        var ps := [[s[0]] + rest[0]] + rest[1..];
        assert Pieces(s) == ps;
        assert ps[1..] == rest[1..];
        assert Join(rest) == rest[0] + "/" + Join(rest[1..]);
        assert s == [s[0]] + s[1..];
      }
    }
  }

  lemma {:induction false} JoinSnoc(parts: seq<string>, x: string)
    requires |parts| >= 1
    ensures Join(parts + [x]) == Join(parts) + "/" + x
    decreases |parts|
  {
    if |parts| == 1 {
      assert (parts + [x])[1..] == [x];
    } else {
      assert (parts + [x])[1..] == parts[1..] + [x];
      JoinSnoc(parts[1..], x);
    }
  }

  lemma {:induction false} JoinDropTrailing(parts: seq<string>)
    requires |parts| >= 1
    requires forall i :: 0 <= i < |parts| ==> '/' !in parts[i]
    ensures Join(DropTrailingEmpty(parts)) == TrimTrailingSlashes(Join(parts))
    decreases |parts|
  {
    var n := |parts|;
    var init, last := parts[..n - 1], parts[n - 1];
    assert parts == init + [last];
    if n == 1 {
      if last != "" {
        assert last[|last| - 1] in last;
      }
    } else {
      JoinSnoc(init, last);
      if last == "" {
        var j := Join(init) + "/";
        assert Join(parts) == j;
        assert j[..|j| - 1] == Join(init);
        assert TrimTrailingSlashes(j) == TrimTrailingSlashes(Join(init));
        assert DropTrailingEmpty(parts) == DropTrailingEmpty(init);
        JoinDropTrailing(init);
      } else {
        var j := Join(parts);
        assert j[|j| - 1] == last[|last| - 1];
        assert last[|last| - 1] in last;
      }
    }
  }

  /** The partner of Split: joining its parts gives the path back, less any
      trailing slashes (which is all that Split drops). */
  lemma SplitJoin(s: string)
    ensures Join(Split(s)) == TrimTrailingSlashes(s)
  {
    if '/' !in s {
      if |s| > 0 {
        assert s[|s| - 1] in s;
      }
    } else {
      JoinPieces(s);
      JoinDropTrailing(Pieces(s));
    }
  }

  lemma {:induction false} PiecesOfSegment(a: string)
    requires '/' !in a
    ensures Pieces(a) == [a]
    decreases |a|
  {
    if |a| > 0 {
      assert '/' !in a[1..] by {
        forall i | 0 <= i < |a[1..]| ensures a[1..][i] != '/' { assert a[1..][i] == a[i + 1]; }
      }
      PiecesOfSegment(a[1..]);
      assert a == [a[0]] + a[1..];
    }
  }

  lemma {:induction false} PiecesSlash(a: string, b: string)
    requires '/' !in a
    ensures Pieces(a + "/" + b) == [a] + Pieces(b)
    decreases |a|
  {
    var s := a + "/" + b;
    if |a| == 0 {
      assert s[1..] == b;
    } else {
      assert s[1..] == a[1..] + "/" + b;
      assert '/' !in a[1..] by {
        forall i | 0 <= i < |a[1..]| ensures a[1..][i] != '/' { assert a[1..][i] == a[i + 1]; }
      }
      PiecesSlash(a[1..], b);
      assert a == [a[0]] + a[1..];
    }
  }

  /** A path of the shape /<first>/<segment> splits into exactly ["", first, segment]. */
  lemma ItemPathSplit(first: string, segment: string)
    requires '/' !in first && '/' !in segment && segment != ""
    ensures Split("/" + first + "/" + segment) == ["", first, segment]
  {
    var s := "/" + first + "/" + segment;
    assert s == "" + "/" + (first + "/" + segment);
    assert s[0] == '/';
    PiecesSlash("", first + "/" + segment);
    PiecesSlash(first, segment);
    PiecesOfSegment(segment);
  }

  // ---------------------------------------------------------------------------
  // Integer.parseInt and Integer.toString
  // ---------------------------------------------------------------------------

  /** Bounds of Java's 32-bit int. */
  const MinInt: int := -0x8000_0000
  const MaxInt: int := 0x7fff_ffff

  predicate IsDigit(c: char)
  {
    '0' <= c <= '9'
  }

  predicate AllDigits(ds: string)
  {
    forall i :: 0 <= i < |ds| ==> IsDigit(ds[i])
  }

  /** Value of a string of decimal digits, most significant first. */
  function DigitsValue(ds: string): nat
    requires AllDigits(ds)
  {
    if |ds| == 0 then 0
    else 10 * DigitsValue(ds[..|ds| - 1]) + (ds[|ds| - 1] as int - '0' as int)
  }

  /** The digits of a number after an optional leading sign. */
  function Unsigned(s: string): string
  {
    if |s| > 0 && (s[0] == '-' || s[0] == '+') then s[1..] else s
  }

  /** Integer.parseInt(s): an optional '+' or '-', then one or more decimal digits,
      whose value must fit in a Java int; anything else is a NumberFormatException (None). */
  function ParseInt(s: string): (r: Option<int>)
    ensures r.Some? ==> MinInt <= r.value <= MaxInt
    ensures r.Some? ==> Unsigned(s) != [] && AllDigits(Unsigned(s))
    ensures r.Some? ==> r.value == (if s[0] == '-' then -1 else 1) * DigitsValue(Unsigned(s))
    ensures Unsigned(s) != [] && AllDigits(Unsigned(s))
            && MinInt <= (if s[0] == '-' then -1 else 1) * DigitsValue(Unsigned(s)) <= MaxInt
            ==> r.Some?
  {
    var digits := Unsigned(s);
    if |digits| == 0 || !AllDigits(digits) then None
    else
      var v := if s[0] == '-' then -(DigitsValue(digits) as int) else DigitsValue(digits);
      if MinInt <= v <= MaxInt then Some(v) else None
  }

  function DigitChar(d: nat): char
    requires d < 10
  {
    ('0' as int + d) as char
  }

  /** The shortest decimal digits of n. */
  function Digits(n: nat): (ds: string)
    ensures |ds| > 0 && AllDigits(ds)
    ensures ds[0] != '-' && ds[0] != '+'
    ensures DigitsValue(ds) == n
  {
    if n < 10 then [DigitChar(n)]
    else
      var init := Digits(n / 10);
      var ds := init + [DigitChar(n % 10)];
      assert ds[..|ds| - 1] == init;
      ds
  }

  /** Integer.toString(n): how the id of a record is written back to a client. */
  function Decimal(n: int): (s: string)
    ensures s != [] && '/' !in s
  {
    var s := if n < 0 then "-" + Digits(-n) else Digits(n);
    assert forall i :: 0 <= i < |s| ==> s[i] != '/';
    s
  }

  /** parseInt undoes toString on every Java int. */
  lemma ParseDecimal(n: int)
    requires MinInt <= n <= MaxInt
    ensures ParseInt(Decimal(n)) == Some(n)
  {
    if n < 0 {
      assert Unsigned(Decimal(n)) == Digits(-n);
    } else {
      assert Unsigned(Decimal(n)) == Digits(n);
    }
  }

  // ---------------------------------------------------------------------------
  // String.equalsIgnoreCase against an upper-case ASCII name
  // ---------------------------------------------------------------------------

  /** Whether c matches the upper-case ASCII character u under equalsIgnoreCase:
      c is u, or Character.toUpperCase(c) is u, or the lower case of that upper case
      is the lower case of u. Besides the lower-case ASCII letter this admits
      U+017F (long s) and U+0131 (dotless i), whose upper cases are 'S' and 'I',
      and U+0130 (dotted capital I) and U+212A (Kelvin sign), whose lower cases
      are 'i' and 'k'. */
  predicate SameIgnoringCase(c: char, u: char)
  {
    c == u
    || ('A' <= u <= 'Z' && c as int == u as int + 32)
    || (u == 'S' && c == '\U{017F}')
    || (u == 'I' && (c == '\U{0131}' || c == '\U{0130}'))
    || (u == 'K' && c == '\U{212A}')
  }

  predicate IsAscii(s: string)
  {
    forall i :: 0 <= i < |s| ==> s[i] as int < 128
  }

  predicate NoLowerAscii(name: string)
  {
    forall i :: 0 <= i < |name| ==> !('a' <= name[i] <= 'z')
  }

  /** s.equalsIgnoreCase(name) for a name without lower-case ASCII letters; on an
      ASCII string it is equality after upper-casing the ASCII letters. */
  predicate EqualsIgnoreCase(s: string, name: string)
    ensures IsAscii(s) && NoLowerAscii(name) ==>
      (EqualsIgnoreCase(s, name) <==> ToUpperAscii(s) == name)
  {
    |s| == |name| && forall i :: 0 <= i < |s| ==> SameIgnoringCase(s[i], name[i])
  }

  function UpperAscii(c: char): char
  {
    if 'a' <= c <= 'z' then (c as int - 32) as char else c
  }

  /** Every ASCII letter of s in upper case. */
  function ToUpperAscii(s: string): string
  {
    seq(|s|, i requires 0 <= i < |s| => UpperAscii(s[i]))
  }

  /** The characters outside ASCII that equalsIgnoreCase takes for an ASCII letter. */
  lemma NonAsciiCaseMatches()
    ensures EqualsIgnoreCase("\U{017F}", "S") && EqualsIgnoreCase("\U{0131}", "I")
    ensures EqualsIgnoreCase("\U{0130}", "I") && EqualsIgnoreCase("\U{212A}", "K")
    ensures !EqualsIgnoreCase("\U{00DF}", "S")
  {
    assert "\U{00DF}"[0] == '\U{00DF}' && "S"[0] == 'S';
  }

  /** Comparing with an upper-case name does not depend on the case of ASCII letters. */
  lemma EqualsIgnoreCaseUpper(s: string, name: string)
    requires NoLowerAscii(name)
    ensures EqualsIgnoreCase(ToUpperAscii(s), name) == EqualsIgnoreCase(s, name)
  {
  }
}

=== FILE: server.dfy ===
/** The server's mutable state and its two request handlers, written step by step
    as TodoServer.java does them: a list and a counter updated in place, a loop
    that collects the visible records, a loop that looks a record up by id. Each
    handler is proved to do exactly what the pure model TodoModel prescribes. */
module Server {
  import opened Wrappers
  import opened JavaText
  import opened TodoModel

  class TodoServer {
    /** `static List<Todo> todos` and `static int counter` (lines 10-11). */
    var todos: seq<Todo>
    var counter: int

    function Snapshot(): State
      reads this
    {
      State(todos, counter)
    }

    ghost predicate Valid()
      reads this
    {
      WellFormed(Snapshot())
    }

    constructor ()
      ensures Snapshot() == Initial && Valid()
    {
      todos := [];
      counter := 1;
    }

    /** The loop of lines 23-25: the records not deleted, in list order. */
    method VisibleTodos() returns (visible: seq<Todo>)
      ensures visible == Visible(todos)
    {
      visible := [];
      var i := 0;
      while i < |todos|
        invariant 0 <= i <= |todos|
        invariant visible == Visible(todos[..i])
      {
        assert todos[..i + 1][..i] == todos[..i];
        if !todos[i].deleted {
          visible := visible + [todos[i]];
        }
        i := i + 1;
      }
      assert todos[..i] == todos;
    }

    /** The loop of lines 79-81: it does not stop at a match, so it ends on the
        last record that has the id and is not deleted. */
    method Lookup(id: int) returns (found: Option<nat>)
      ensures found == FindVisible(todos, id)
    {
      found := None;
      var i := 0;
      while i < |todos|
        invariant 0 <= i <= |todos|
        invariant found == FindVisible(todos[..i], id)
      {
        assert todos[..i + 1][..i] == todos[..i];
        if todos[i].id == id && !todos[i].deleted {
          found := Some(i);
        }
        i := i + 1;
      }
      assert todos[..i] == todos;
    }

    /** `t.id = counter++; t.deleted = false; todos.add(t);` (lines 39-41, 112-114). */
    method Add(d: Draft) returns (t: Todo)
      modifies this
      ensures t == Todo(old(counter), d.title, d.status, false)
      ensures todos == old(todos) + [t] && counter == old(counter) + 1
    {
      t := Todo(counter, d.title, d.status, false);
      counter := counter + 1;
      todos := todos + [t];
    }

    /** The /todos handler (lines 17-47). */
    method HandleCollection(requestMethod: string, body: BodyParse) returns (resp: Response)
      modifies this
      ensures Step(Snapshot(), resp) == Collection(old(Snapshot()), requestMethod, body)
      ensures old(Valid()) ==> Valid()
    {
      var verb := VerbOf(requestMethod);
      if verb == Get {
        var visible := VisibleTodos();
        resp := Reply(200, Many(visible));
      } else if verb == Post {
        match body {
          case Malformed =>
            resp := Reply(400, NoBody);
          case Null =>
            counter := counter + 1;
            resp := Aborted;
          case Parsed(d) =>
            var t := Add(d);
            resp := Reply(201, One(t));
        }
      } else {
        resp := Reply(405, NoBody);
      }
    }

    /** The /todos/ handler (lines 56-123): split the path, parse the id, look the
        record up (404 if absent, before the method is considered), then dispatch. */
    method HandleItem(requestMethod: string, path: string, body: BodyParse) returns (resp: Response)
      modifies this
      ensures Step(Snapshot(), resp) == Item(old(Snapshot()), requestMethod, path, body)
      ensures old(Valid()) ==> Valid()
    {
      var parts := Split(path);
      if |parts| < 3 || parts[2] == "" {
        return Reply(404, NoBody);
      }
      var parsed := ParseInt(parts[2]);
      if parsed.None? {
        return Reply(400, NoBody);
      }
      var found := Lookup(parsed.value);
      if found.None? {
        return Reply(404, NoBody);
      }
      var k := found.value;
      var verb := VerbOf(requestMethod);
      if verb == Put {
        match body {
          case Malformed =>
            resp := Reply(400, NoBody);
          case Null =>
            resp := Aborted;
          case Parsed(d) =>
            todos := todos[k := todos[k].(title := d.title, status := d.status)];
            resp := Reply(200, One(todos[k]));
        }
      } else if verb == Get {
        resp := Reply(200, One(todos[k]));
      } else if verb == Delete {
        todos := todos[k := todos[k].(deleted := true)];
        resp := Reply(204, NoBody);
      } else if verb == Post {
        match body {
          case Malformed =>
            resp := Reply(400, NoBody);
          case Null =>
            counter := counter + 1;
            resp := Reply(400, NoBody);
          case Parsed(d) =>
            var t := Add(d);
            resp := Reply(201, One(t));
        }
      } else {
        resp := Reply(405, NoBody);
      }
    }
  }
}

=== FILE: todo_model.dfy ===
/** The todo store and its two request handlers as pure functions of the store
    state: TodoServer.java keeps a list of records and an id counter (lines 10-11);
    the /todos handler (lines 17-47) and the /todos/ handler (lines 56-123) each map
    a request method, a path and the outcome of reading the JSON body to a new state
    and a response. The class Server.TodoServer is proved to implement these. */
module TodoModel {
  import opened Wrappers
  import opened JavaText

  /** A stored record (the Todo objects of the list). */
  datatype Todo = Todo(id: int, title: string, status: string, deleted: bool)

  /** The title and status Gson reads from a request body. */
  datatype Draft = Draft(title: string, status: string)

  /** What gson.fromJson(body, Todo.class) does with a request body. */
  datatype BodyParse =
    | Malformed          // it throws: the body is not JSON for a Todo
    | Null               // it returns null: an empty body or the JSON literal null
    | Parsed(draft: Draft)

  /** A response body: none (sendResponseHeaders with length -1), one record, or a list. */
  datatype Payload = NoBody | One(todo: Todo) | Many(items: seq<Todo>)

  /** A status line with its body, or a handler that ended in an uncaught
      NullPointerException and sent no status. */
  datatype Response = Reply(code: int, payload: Payload) | Aborted

  /** The static fields `todos` and `counter`. */
  datatype State = State(todos: seq<Todo>, counter: int)

  /** The state after a request, and what was sent back. */
  datatype Step = Step(next: State, response: Response)

  /** The request methods the handlers tell apart. */
  datatype Verb = Get | Post | Put | Delete | Other

  /** The state at start-up: an empty list and counter 1. */
  const Initial: State := State([], 1)

  /** The `"X".equalsIgnoreCase(method)` tests; the four names are pairwise
      distinct under case folding, so the order of the tests does not matter. */
  function VerbOf(requestMethod: string): (v: Verb)
    ensures v == Put <==> EqualsIgnoreCase(requestMethod, "PUT")
    ensures v == Get <==> EqualsIgnoreCase(requestMethod, "GET")
    ensures v == Delete <==> EqualsIgnoreCase(requestMethod, "DELETE")
    ensures v == Post <==> EqualsIgnoreCase(requestMethod, "POST")
  {
    if EqualsIgnoreCase(requestMethod, "PUT") then Put
    else if EqualsIgnoreCase(requestMethod, "GET") then Get
    else if EqualsIgnoreCase(requestMethod, "DELETE") then Delete
    else if EqualsIgnoreCase(requestMethod, "POST") then Post
    else Other
  }

  /** The records a list or lookup may show: those not soft-deleted. */
  predicate Shows(t: Todo, id: int)
  {
    t.id == id && !t.deleted
  }

  /** The records with deleted == false, in list order. */
  function Visible(ts: seq<Todo>): (r: seq<Todo>)
    ensures |r| <= |ts|
    ensures forall t :: t in r ==> t in ts && !t.deleted
  {
    if |ts| == 0 then []
    else
      var rest := Visible(ts[..|ts| - 1]);
      var last := ts[|ts| - 1];
      if last.deleted then rest else rest + [last]
  }

  /** The index the lookup loop ends on: the last record showing `id`, if any. */
  function FindVisible(ts: seq<Todo>, id: int): (r: Option<nat>)
    ensures r.Some? ==> r.value < |ts| && Shows(ts[r.value], id)
    ensures r.Some? ==> forall j :: r.value < j < |ts| ==> !Shows(ts[j], id)
    ensures r.None? ==> forall j :: 0 <= j < |ts| ==> !Shows(ts[j], id)
  {
    if |ts| == 0 then None
    else if Shows(ts[|ts| - 1], id) then Some(|ts| - 1)
    else FindVisible(ts[..|ts| - 1], id)
  }

  /** The store invariant: ids are at least 1, below the counter, and strictly
      increase along the list (hence they are distinct). */
  predicate WellFormed(st: State)
  {
    1 <= st.counter
    && (forall i :: 0 <= i < |st.todos| ==> 1 <= st.todos[i].id < st.counter)
    && (forall i, j :: 0 <= i < j < |st.todos| ==> st.todos[i].id < st.todos[j].id)
  }

  /** How the state of one record may change over time: its id never changes,
      and once deleted it never changes at all. */
  predicate RecordEvolves(a: Todo, b: Todo)
  {
    b.id == a.id && (a.deleted ==> b == a)
  }

  /** How the whole store may change: the list never shrinks, existing records
      only evolve, and the counter never goes back. */
  predicate Evolves(a: State, b: State)
  {
    |a.todos| <= |b.todos|
    && a.counter <= b.counter
    && forall i :: 0 <= i < |a.todos| ==> RecordEvolves(a.todos[i], b.todos[i])
  }

  /** `t.id = counter++; t.deleted = false; todos.add(t);` then 201 with the record. */
  function Create(st: State, d: Draft): (r: Step)
    ensures |r.next.todos| == |st.todos| + 1 && r.next.todos[..|st.todos|] == st.todos
    ensures r.next.counter == st.counter + 1 && r.response == Reply(201, One(r.next.todos[|st.todos|]))
    ensures r.next.todos[|st.todos|].id == st.counter && !r.next.todos[|st.todos|].deleted
    ensures WellFormed(st) ==> WellFormed(r.next)
    ensures WellFormed(st) ==> forall i :: 0 <= i < |st.todos| ==> st.todos[i].id != st.counter
  {
    var t := Todo(st.counter, d.title, d.status, false);
    Step(State(st.todos + [t], st.counter + 1), Reply(201, One(t)))
  }

  /** A 2xx reply: the only responses after which the records may differ. */
  predicate Succeeded(resp: Response)
  {
    resp.Reply? && resp.code < 300
  }

  /** The /todos handler (lines 17-47). */
  function Collection(st: State, requestMethod: string, body: BodyParse): (r: Step)
    ensures Evolves(st, r.next)
    ensures !Succeeded(r.response) ==> r.next.todos == st.todos
    ensures r.next.counter == st.counter || r.next.counter == st.counter + 1
    ensures WellFormed(st) ==> WellFormed(r.next)
  {
    match VerbOf(requestMethod)
    case Get => Step(st, Reply(200, Many(Visible(st.todos))))
    case Post =>
      (match body
       case Malformed => Step(st, Reply(400, NoBody))
       // `t.id = counter++` with t == null: the counter moves, then the NPE escapes
       case Null => Step(st.(counter := st.counter + 1), Aborted)
       case Parsed(d) => Create(st, d))
    case _ => Step(st, Reply(405, NoBody))
  }

  /** What the item handler makes of the request path (lines 60-73). */
  datatype Target = NoRoute | BadId | Id(id: int)

  function ItemTarget(path: string): (r: Target)
    ensures r == NoRoute <==> |Split(path)| < 3 || Split(path)[2] == ""
    ensures r.Id? ==> MinInt <= r.id <= MaxInt && ParseInt(Split(path)[2]) == Some(r.id)
    ensures |Split(path)| >= 3 && Split(path)[2] != "" && ParseInt(Split(path)[2]).Some?
            ==> r == Id(ParseInt(Split(path)[2]).value)
  {
    var parts := Split(path);
    if |parts| < 3 || parts[2] == "" then NoRoute
    else
      match ParseInt(parts[2])
      case None => BadId
      case Some(id) => Id(id)
  }

  /** The /todos/ handler (lines 56-123): path, lookup, then method dispatch. */
  function Item(st: State, requestMethod: string, path: string, body: BodyParse): (r: Step)
    ensures Evolves(st, r.next)
    ensures !Succeeded(r.response) ==> r.next.todos == st.todos
    ensures r.next.counter == st.counter || r.next.counter == st.counter + 1
    ensures WellFormed(st) ==> WellFormed(r.next)
  {
    match ItemTarget(path)
    case NoRoute => Step(st, Reply(404, NoBody))
    case BadId => Step(st, Reply(400, NoBody))
    case Id(id) =>
      match FindVisible(st.todos, id)
      case None => Step(st, Reply(404, NoBody))
      case Some(k) =>
        var todo := st.todos[k];
        match VerbOf(requestMethod)
        case Put =>
          (match body
           case Malformed => Step(st, Reply(400, NoBody))
           // `todo.title = upd.title` with upd == null: the NPE escapes, nothing written
           case Null => Step(st, Aborted)
           case Parsed(d) =>
             var updated := todo.(title := d.title, status := d.status);
             Step(st.(todos := st.todos[k := updated]), Reply(200, One(updated))))
        case Get => Step(st, Reply(200, One(todo)))
        case Delete => Step(st.(todos := st.todos[k := todo.(deleted := true)]), Reply(204, NoBody))
        case Post =>
          (match body
           case Malformed => Step(st, Reply(400, NoBody))
           // the counter moves before the NPE, which this handler catches
           case Null => Step(st.(counter := st.counter + 1), Reply(400, NoBody))
           case Parsed(d) => Create(st, d))
        case Other => Step(st, Reply(405, NoBody))
  }

  /** A request as the server hands it to one of the two handlers. */
  datatype Request =
    | ToCollection(requestMethod: string, body: BodyParse)
    | ToItem(requestMethod: string, path: string, body: BodyParse)

  function Handle(st: State, req: Request): Step
  {
    match req
    case ToCollection(m, body) => Collection(st, m, body)
    case ToItem(m, path, body) => Item(st, m, path, body)
  }

  /** The single-threaded server runs requests one after another. */
  function Run(st: State, reqs: seq<Request>): (r: State)
    ensures |st.todos| <= |r.todos| && st.counter <= r.counter
    ensures forall i :: 0 <= i < |st.todos| ==> RecordEvolves(st.todos[i], r.todos[i])
    decreases |reqs|
  {
    if |reqs| == 0 then st else Run(Handle(st, reqs[0]).next, reqs[1..])
  }
}

=== FILE: todo_properties.dfy ===
/** What the two handlers promise, proved about the pure model in TodoModel:
    the store invariant and how records evolve, the effect of every branch of
    each handler, and the end-to-end behaviour of create, update and delete. */
module TodoProperties {
  import opened Wrappers
  import opened JavaText
  import opened TodoModel

  // ---------------------------------------------------------------------------
  // Request methods
  // ---------------------------------------------------------------------------

  /** The method tests ignore the case of ASCII letters. */
  lemma VerbIgnoresCase(requestMethod: string)
    ensures VerbOf(ToUpperAscii(requestMethod)) == VerbOf(requestMethod)
  {
    EqualsIgnoreCaseUpper(requestMethod, "PUT");
    EqualsIgnoreCaseUpper(requestMethod, "GET");
    EqualsIgnoreCaseUpper(requestMethod, "DELETE");
    EqualsIgnoreCaseUpper(requestMethod, "POST");
  }

  /** Spellings of methods in any letter case are recognised. */
  lemma VerbExamples()
    ensures VerbOf("GET") == Get && VerbOf("get") == Get && VerbOf("Post") == Post
    ensures VerbOf("pUt") == Put && VerbOf("delete") == Delete
  {
    assert EqualsIgnoreCase("get", "GET") by {
      assert "get" == ['g', 'e', 't'] && "GET" == ['G', 'E', 'T'];
    }
    assert EqualsIgnoreCase("Post", "POST") by {
      assert "Post" == ['P', 'o', 's', 't'] && "POST" == ['P', 'O', 'S', 'T'];
    }
    assert EqualsIgnoreCase("pUt", "PUT") by {
      assert "pUt" == ['p', 'U', 't'] && "PUT" == ['P', 'U', 'T'];
    }
    assert EqualsIgnoreCase("delete", "DELETE") by {
      assert "delete" == ['d', 'e', 'l', 'e', 't', 'e'] && "DELETE" == ['D', 'E', 'L', 'E', 'T', 'E'];
    }
  }

  /** Methods the handlers do not know, including a longer word starting with one
      they do know, are all Other. */
  lemma UnknownVerbExamples()
    ensures VerbOf("PATCH") == Other && VerbOf("HEAD") == Other && VerbOf("GETS") == Other
  {
    assert !EqualsIgnoreCase("HEAD", "POST") by {
      assert "HEAD"[0] == 'H' && "POST"[0] == 'P' && !SameIgnoringCase('H', 'P');
    }
    assert !EqualsIgnoreCase("GETS", "POST") by {
      assert "GETS"[0] == 'G' && "POST"[0] == 'P' && !SameIgnoringCase('G', 'P');
    }
  }

  // ---------------------------------------------------------------------------
  // The visible list and the lookup
  // ---------------------------------------------------------------------------

  /** The visible list holds exactly the records that are not deleted. */
  lemma {:induction false} VisibleMembers(ts: seq<Todo>, t: Todo)
    ensures t in Visible(ts) <==> t in ts && !t.deleted
    decreases |ts|
  {
    if |ts| > 0 {
      var init := ts[..|ts| - 1];
      assert ts == init + [ts[|ts| - 1]];
      VisibleMembers(init, t);
    }
  }

  /** Filtering keeps list order: the visible records of a list made of two parts
      are those of the first part followed by those of the second. */
  lemma {:induction false} VisibleAppend(a: seq<Todo>, b: seq<Todo>)
    ensures Visible(a + b) == Visible(a) + Visible(b)
    decreases |b|
  {
    if |b| == 0 {
      assert a + b == a;
    } else {
      var init := b[..|b| - 1];
      assert (a + b)[..|a + b| - 1] == a + init;
      VisibleAppend(a, init);
    }
  }

  /** On a well-formed store the visible list is in increasing id order. */
  lemma {:induction false} VisibleOrdered(ts: seq<Todo>)
    requires forall i, j :: 0 <= i < j < |ts| ==> ts[i].id < ts[j].id
    ensures forall i, j :: 0 <= i < j < |Visible(ts)| ==> Visible(ts)[i].id < Visible(ts)[j].id
    decreases |ts|
  {
    if |ts| > 0 {
      var init, last := ts[..|ts| - 1], ts[|ts| - 1];
      VisibleOrdered(init);
      forall t | t in Visible(init) ensures t.id < last.id {
        var i :| 0 <= i < |init| && init[i] == t;
      }
    }
  }

  /** On a well-formed store, the lookup for a visible record's id finds that record. */
  lemma FindVisibleUnique(st: State, k: nat)
    requires WellFormed(st) && k < |st.todos| && !st.todos[k].deleted
    ensures FindVisible(st.todos, st.todos[k].id) == Some(k)
  {
    var r := FindVisible(st.todos, st.todos[k].id);
    assert r.Some?;
  }

  // ---------------------------------------------------------------------------
  // The store invariant and how the store evolves
  // ---------------------------------------------------------------------------

  lemma InitialWellFormed()
    ensures WellFormed(Initial) && Initial.todos == [] && Initial.counter == 1
  {
  }

  /** Create appends exactly one record and leaves every existing record as it was. */
  lemma CreateKeepsWellFormed(st: State, d: Draft)
    requires WellFormed(st)
    ensures Create(st, d).next.todos == st.todos + [Todo(st.counter, d.title, d.status, false)]
    ensures WellFormed(Create(st, d).next) && Evolves(st, Create(st, d).next)
  {
    var ts := Create(st, d).next.todos;
    assert forall i :: 0 <= i < |st.todos| ==> ts[i] == st.todos[i];
  }

  lemma EvolvesTransitive(a: State, b: State, c: State)
    requires Evolves(a, b) && Evolves(b, c)
    ensures Evolves(a, c)
  {
    forall i | 0 <= i < |a.todos| ensures RecordEvolves(a.todos[i], c.todos[i]) {
      assert RecordEvolves(a.todos[i], b.todos[i]) && RecordEvolves(b.todos[i], c.todos[i]);
    }
  }

  /** Over any sequence of requests: the invariant holds, the list never shrinks,
      ids never change, and a deleted record is never changed again, in particular
      never undeleted. */
  lemma {:induction false} RunKeepsWellFormed(st: State, reqs: seq<Request>)
    requires WellFormed(st)
    ensures WellFormed(Run(st, reqs)) && Evolves(st, Run(st, reqs))
    decreases |reqs|
  {
    if |reqs| > 0 {
      var next := Handle(st, reqs[0]).next;
      RunKeepsWellFormed(next, reqs[1..]);
      EvolvesTransitive(st, next, Run(next, reqs[1..]));
    }
  }

  // ---------------------------------------------------------------------------
  // The /todos handler
  // ---------------------------------------------------------------------------

  /** GET /todos lists exactly the records not deleted, in list (= id) order,
      and changes nothing. */
  lemma CollectionGetLists(st: State, requestMethod: string, body: BodyParse)
    requires WellFormed(st) && VerbOf(requestMethod) == Get
    ensures var s := Collection(st, requestMethod, body);
      s.next == st && s.response.Reply? && s.response.code == 200
      && s.response.payload == Many(Visible(st.todos))
      && (forall t :: t in s.response.payload.items <==> t in st.todos && !t.deleted)
      && (forall i, j :: 0 <= i < j < |s.response.payload.items| ==>
            s.response.payload.items[i].id < s.response.payload.items[j].id)
  {
    forall t ensures t in Visible(st.todos) <==> t in st.todos && !t.deleted {
      VisibleMembers(st.todos, t);
    }
    VisibleOrdered(st.todos);
  }

  /** POST /todos with a parsed body appends one record with the old counter as
      its id, never used before, and deleted == false; the counter goes up by one,
      every existing record stays as it was, and the response is 201 with the record. */
  lemma CollectionPostCreates(st: State, requestMethod: string, d: Draft)
    requires WellFormed(st) && VerbOf(requestMethod) == Post
    ensures var t := Todo(st.counter, d.title, d.status, false);
      var s := Collection(st, requestMethod, Parsed(d));
      s.next.todos == st.todos + [t] && s.next.counter == st.counter + 1
      && s.response == Reply(201, One(t))
      && forall i :: 0 <= i < |st.todos| ==> st.todos[i].id != t.id
  {
  }

  /** A body Gson cannot parse gives 400 and leaves the store as it was. */
  lemma CollectionPostMalformed(st: State, requestMethod: string)
    requires VerbOf(requestMethod) == Post
    ensures Collection(st, requestMethod, Malformed) == Step(st, Reply(400, NoBody))
  {
  }

  /** An empty or `null` body: the counter still advances, no record is added,
      and the handler dies without a status. */
  lemma CollectionPostNull(st: State, requestMethod: string)
    requires VerbOf(requestMethod) == Post
    ensures Collection(st, requestMethod, Null) == Step(State(st.todos, st.counter + 1), Aborted)
  {
  }

  /** Every method other than GET and POST, PUT and DELETE included, gives 405. */
  lemma CollectionOtherMethod(st: State, requestMethod: string, body: BodyParse)
    requires VerbOf(requestMethod) != Get && VerbOf(requestMethod) != Post
    ensures Collection(st, requestMethod, body) == Step(st, Reply(405, NoBody))
  {
  }

  // ---------------------------------------------------------------------------
  // Paths of the /todos/ handler
  // ---------------------------------------------------------------------------

  /** A path whose third '/'-part is missing or empty is a 404, whatever the method,
      body or store; the store is unchanged. */
  lemma NoRouteIs404(st: State, requestMethod: string, path: string, body: BodyParse)
    requires |Split(path)| < 3 || Split(path)[2] == ""
    ensures Item(st, requestMethod, path, body) == Step(st, Reply(404, NoBody))
  {
  }

  /** A third part that parseInt rejects is a 400; the store is unchanged. */
  lemma BadIdIs400(st: State, requestMethod: string, path: string, body: BodyParse)
    requires |Split(path)| >= 3 && Split(path)[2] != "" && ParseInt(Split(path)[2]).None?
    ensures Item(st, requestMethod, path, body) == Step(st, Reply(400, NoBody))
  {
  }

  /** "/todos/" (and "/x/", for any first part): the split leaves only two parts. */
  lemma TrailingSlashIsNoRoute(first: string)
    requires '/' !in first
    ensures ItemTarget("/" + first + "/") == NoRoute
  {
    var s := "/" + first + "/";
    assert s == "" + "/" + (first + "/" + "");
    assert s[0] == '/';
    PiecesSlash("", first + "/" + "");
    PiecesSlash(first, "");
    assert Pieces(s) == ["", first, ""];
    assert Pieces(s)[..2] == ["", first];
  }

  /** "/todos//5": an empty third part is a 404 even though an id follows. */
  lemma EmptySegmentIsNoRoute(first: string, rest: string)
    requires '/' !in first
    ensures ItemTarget("/" + first + "//" + rest) == NoRoute
  {
    var s := "/" + first + "//" + rest;
    assert s == "" + "/" + (first + "/" + ("" + "/" + rest));
    assert s[0] == '/';
    PiecesSlash("", first + "/" + ("" + "/" + rest));
    PiecesSlash(first, "" + "/" + rest);
    PiecesSlash("", rest);
    var p := Pieces(s);
    assert p[..3] == ["", first, ""];
    var r := DropTrailingEmpty(p);
    assert |r| >= 3 ==> r[2] == p[2];
  }

  /** The id is the third part whatever the second part is, and anything after
      the id ("/todos/5/x", "/todos/5/") is ignored. */
  lemma TargetIgnoresRest(first: string, segment: string, rest: string)
    requires '/' !in first && '/' !in segment && segment != ""
    ensures ItemTarget("/" + first + "/" + segment + "/" + rest)
         == ItemTarget("/" + first + "/" + segment)
  {
    var s := "/" + first + "/" + segment + "/" + rest;
    assert s == "" + "/" + (first + "/" + (segment + "/" + rest));
    assert s[0] == '/';
    PiecesSlash("", first + "/" + (segment + "/" + rest));
    PiecesSlash(first, segment + "/" + rest);
    PiecesSlash(segment, rest);
    var p := Pieces(s);
    assert p[..3] == ["", first, segment];
    var r := DropTrailingEmpty(p);
    assert p[2] != "";
    assert |r| >= 3;
    assert r[2] == segment;
    ItemPathSplit(first, segment);
  }

  /** A path ending in the decimal form of an int addresses that id. */
  lemma TargetOfDecimal(first: string, n: int)
    requires '/' !in first && MinInt <= n <= MaxInt
    ensures ItemTarget("/" + first + "/" + Decimal(n)) == Id(n)
  {
    ItemPathSplit(first, Decimal(n));
    ParseDecimal(n);
  }

  /** Leading zeros are accepted: "/todos/007" addresses id 7. */
  lemma {:induction false} LeadingZeroValue(ds: string)
    requires AllDigits(ds)
    ensures AllDigits("0" + ds) && DigitsValue("0" + ds) == DigitsValue(ds)
    decreases |ds|
  {
    var z := "0" + ds;
    assert forall i :: 0 <= i < |z| ==> IsDigit(z[i]);
    if |ds| > 0 {
      var init := ds[..|ds| - 1];
      assert z[..|z| - 1] == "0" + init;
      LeadingZeroValue(init);
    }
  }

  lemma LeadingZeroIgnored(n: nat)
    requires n <= MaxInt
    ensures ParseInt("0" + Digits(n)) == Some(n)
  {
    LeadingZeroValue(Digits(n));
    assert Unsigned("0" + Digits(n)) == "0" + Digits(n);
  }

  /** An id above Integer.MAX_VALUE is a 400, not a lookup. */
  lemma TooLargeIdRejected(n: nat)
    requires n > MaxInt
    ensures ParseInt(Decimal(n)) == None
  {
    assert Unsigned(Decimal(n)) == Digits(n);
  }

  // ---------------------------------------------------------------------------
  // Lookup and dispatch of the /todos/ handler
  // ---------------------------------------------------------------------------

  /** No visible record with the id: 404 before the method is even looked at,
      so POST and unknown methods get 404 too; the store is unchanged. */
  lemma UnknownIdIs404(st: State, requestMethod: string, path: string, body: BodyParse, id: int)
    requires ItemTarget(path) == Id(id)
    requires forall i :: 0 <= i < |st.todos| ==> !Shows(st.todos[i], id)
    ensures Item(st, requestMethod, path, body) == Step(st, Reply(404, NoBody))
  {
  }

  /** GET /todos/{id} of a visible record returns it and changes nothing. */
  lemma ItemGetReturns(st: State, requestMethod: string, path: string, body: BodyParse, k: nat)
    requires WellFormed(st) && k < |st.todos| && !st.todos[k].deleted
    requires ItemTarget(path) == Id(st.todos[k].id) && VerbOf(requestMethod) == Get
    ensures Item(st, requestMethod, path, body) == Step(st, Reply(200, One(st.todos[k])))
  {
    FindVisibleUnique(st, k);
  }

  /** PUT /todos/{id} of a visible record sets only that record's title and status;
      its id and deleted flag, every other record, the length and the counter stay. */
  lemma ItemPutUpdates(st: State, requestMethod: string, path: string, d: Draft, k: nat)
    requires WellFormed(st) && k < |st.todos| && !st.todos[k].deleted
    requires ItemTarget(path) == Id(st.todos[k].id) && VerbOf(requestMethod) == Put
    ensures var s := Item(st, requestMethod, path, Parsed(d));
      var u := Todo(st.todos[k].id, d.title, d.status, false);
      s.response == Reply(200, One(u)) && s.next.counter == st.counter
      && |s.next.todos| == |st.todos| && s.next.todos[k] == u
      && forall i :: 0 <= i < |st.todos| && i != k ==> s.next.todos[i] == st.todos[i]
  {
    FindVisibleUnique(st, k);
  }

  /** PUT or POST with a body Gson rejects: 400 and no change. PUT with an empty
      body dies at the null update without writing; POST with one advances the
      counter, adds nothing and answers 400. */
  lemma ItemBadBody(st: State, requestMethod: string, path: string, id: int)
    requires ItemTarget(path) == Id(id) && FindVisible(st.todos, id).Some?
    requires VerbOf(requestMethod) == Put || VerbOf(requestMethod) == Post
    ensures Item(st, requestMethod, path, Malformed) == Step(st, Reply(400, NoBody))
    ensures VerbOf(requestMethod) == Put ==> Item(st, requestMethod, path, Null) == Step(st, Aborted)
    ensures VerbOf(requestMethod) == Post ==>
      Item(st, requestMethod, path, Null) == Step(State(st.todos, st.counter + 1), Reply(400, NoBody))
  {
  }

  /** POST /todos/{id} of a visible record creates a new, unrelated record,
      exactly as POST /todos does; the record at {id} is untouched. */
  lemma ItemPostCreates(st: State, requestMethod: string, path: string, d: Draft, id: int)
    requires WellFormed(st) && VerbOf(requestMethod) == Post
    requires ItemTarget(path) == Id(id) && FindVisible(st.todos, id).Some?
    ensures Item(st, requestMethod, path, Parsed(d)) == Collection(st, requestMethod, Parsed(d))
    ensures var t := Todo(st.counter, d.title, d.status, false);
      Item(st, requestMethod, path, Parsed(d)).next.todos == st.todos + [t]
      && t.id != id
  {
  }

  /** Methods other than GET, PUT, DELETE and POST on a visible record give 405. */
  lemma ItemOtherMethod(st: State, requestMethod: string, path: string, body: BodyParse, id: int)
    requires ItemTarget(path) == Id(id) && FindVisible(st.todos, id).Some?
    requires VerbOf(requestMethod) == Other
    ensures Item(st, requestMethod, path, body) == Step(st, Reply(405, NoBody))
  {
  }

  /** DELETE /todos/{id} of a visible record sets only its deleted flag and answers 204;
      afterwards every /todos/{id} request is a 404 that changes nothing, and the
      record is gone from the collection listing. */
  lemma ItemDeleteHides(st: State, requestMethod: string, path: string, body: BodyParse, k: nat,
                        laterMethod: string, laterPath: string, laterBody: BodyParse)
    requires WellFormed(st) && k < |st.todos| && !st.todos[k].deleted
    requires ItemTarget(path) == Id(st.todos[k].id) && VerbOf(requestMethod) == Delete
    requires ItemTarget(laterPath) == Id(st.todos[k].id)
    ensures var s := Item(st, requestMethod, path, body);
      s.response == Reply(204, NoBody)
      && s.next == State(st.todos[k := st.todos[k].(deleted := true)], st.counter)
      && Item(s.next, laterMethod, laterPath, laterBody) == Step(s.next, Reply(404, NoBody))
      && forall t :: t in Visible(s.next.todos) ==> t.id != st.todos[k].id
  {
    FindVisibleUnique(st, k);
    var next := Item(st, requestMethod, path, body).next;
    var id := st.todos[k].id;
    forall t | t in Visible(next.todos) ensures t.id != id {
      VisibleMembers(next.todos, t);
      var i :| 0 <= i < |next.todos| && next.todos[i] == t;
    }
  }

  /** A deleted id stays hidden for good: after the DELETE and any sequence of later
      requests, every /todos/{id} request for it is a 404 that changes nothing. */
  lemma DeletedStaysHidden(st: State, requestMethod: string, path: string, body: BodyParse, k: nat,
                           reqs: seq<Request>, laterMethod: string, laterPath: string, laterBody: BodyParse)
    requires WellFormed(st) && k < |st.todos| && !st.todos[k].deleted
    requires ItemTarget(path) == Id(st.todos[k].id) && VerbOf(requestMethod) == Delete
    requires ItemTarget(laterPath) == Id(st.todos[k].id)
    ensures var later := Run(Item(st, requestMethod, path, body).next, reqs);
      Item(later, laterMethod, laterPath, laterBody) == Step(later, Reply(404, NoBody))
  {
    var id := st.todos[k].id;
    FindVisibleUnique(st, k);
    var next := Item(st, requestMethod, path, body).next;
    assert next.todos[k] == st.todos[k].(deleted := true);
    RunKeepsWellFormed(next, reqs);
    var later := Run(next, reqs);
    assert RecordEvolves(next.todos[k], later.todos[k]);
    forall j | 0 <= j < |later.todos| ensures !Shows(later.todos[j], id) {
      if j < k {
        assert later.todos[j].id < later.todos[k].id;
      } else if j > k {
        assert later.todos[k].id < later.todos[j].id;
      }
    }
  }

  /** The scenario "create, then fetch by the returned id": POST /todos with a parsed
      body, then GET /todos/<that id in decimal> returns the record just created. */
  lemma CreateThenGet(st: State, postMethod: string, d: Draft, getMethod: string, body: BodyParse)
    requires WellFormed(st) && st.counter <= MaxInt
    requires VerbOf(postMethod) == Post && VerbOf(getMethod) == Get
    ensures var created := Collection(st, postMethod, Parsed(d));
      Item(created.next, getMethod, "/todos/" + Decimal(st.counter), body)
        == Step(created.next, Reply(200, One(Todo(st.counter, d.title, d.status, false))))
  {
    var next := Collection(st, postMethod, Parsed(d)).next;
    CreateKeepsWellFormed(st, d);
    assert "/todos/" + Decimal(st.counter) == "/" + "todos" + "/" + Decimal(st.counter);
    TargetOfDecimal("todos", st.counter);
    FindVisibleUnique(next, |st.todos|);
  }
}

=== FILE: wrappers.dfy ===
/** The optional value used where the Java code holds a possibly-null reference
    or signals failure with an exception. */
module Wrappers {
  datatype Option<+T> = None | Some(value: T)
}
